=== FILE: README.md ===
# Cricket quiz match engine in Dafny

This project models the match engine of a browser cricket quiz game. The
player's team bats first against a computer side. Every ball starts with a
four-option quiz question that both sides answer. The two answers decide
which numbers the batting side may pick and whether the ball is a no-ball.
Then both sides pick a number:

- matching numbers take a wicket, which costs 15 runs floored at zero,
  unless the ball is a no-ball;
- different numbers score the batting side's number.

An innings lasts `overs * 6` balls. The second innings also stops as soon
as the chasing side passes the first score. The summary then compares the
two frozen scores.

The model is purely functional. `Game.GameState` mirrors the engine's
single state record, and each event (`SelectCountry`, `SelectDifficulty`,
`StartMatch`, `SelectOption`, `SubmitAnswer`, `SelectNumber`, `NextBall`,
`ContinueFromInningsBreak`) is a function from state to state. `Restart`
takes no state and returns the fresh one.
Every random value the engine draws arrives as an explicit, bounded
parameter:

- `Ai.Draw` is a real in `[0, 1)`. It is the one uniform draw a computer
  number pick uses, either for the coin or for the weighted draw.
- `QuestionDraws.pick` is the position among the candidate questions.
- `QuestionDraws.computerCorrect` is the computer's quiz coin.
- `QuestionDraws.wrongOffset` (below 3) is the shift of a wrong answer.

The properties are therefore proved for every outcome of the random draws.

Modules follow the source:

| module | source |
|---|---|
| `Config` | `js/config.js` |
| `Questions` | `js/data/questions.js` |
| `QuestionPool`, `Quiz`, `Ai` | the question and AI helpers of `js/game.js` |
| `Delivery`, `Ball`, `MatchResult` | the rule table, ball scoring and result text of `js/game.js` |
| `Game` | the state record and its transitions |
| `GameInvariants` | the invariant of reachable states and the properties of whole events |

The code checks only two guards itself:

- submitting without a chosen answer;
- picking a number while a ball is still being processed.

Otherwise the screen that is showing decides which events can happen in
which phase. The model follows the code. The transitions carry only those
two guards, and the phase each event needs is a precondition of its
invariant lemma.

The code also ends an innings with `ballCount >= totalBalls` and reaches
the target with `runs >= target`. `Game.NextBall` uses the same
comparisons.

## Model

| member | source | states |
|---|---|---|
| Config.ScoringOptionsDistinct | js/config.js:12 | the six scoring values are distinct and non-negative |
| Config.DisplayOrderIsPermutation | js/config.js:12-13 | the button layout has the scoring values' length, no repeats and the same members, so it is a reordering of them |
| Config.RestrictedWithinScoring | js/game.js:575-597 | the restricted set [0, 1] of the delivery rule lies within the scoring values |
| Config.DifficultiesHaveStrategies | js/config.js:114-139 | the difficulty names and the AI strategy table have the same keys |
| Config.AvailableOpponentsPaired | js/config.js:33-89 | an available team's opponent is a different, available team whose own opponent is the first team |
| Config.ZimbabweOpponentMissing | js/config.js:90-96 | the unavailable Zimbabwe entry names an opponent key that the table lacks |
| Config.DefaultBallCount | js/game.js:163-164 | the fresh state's 3 overs and 18 balls agree with 6 balls per over |
| Questions.PoolWellFormed | js/data/questions.js:4-59 | the pool holds 37 questions, each with four options and a correct index among them |
| Quiz.ComputerAnswer | js/game.js:505-507 | the computer's answer is a valid option; it equals the correct index exactly when the computer's coin says correct |
| Quiz.WrongAnswersCoverOtherOptions | js/game.js:505-507 | every wrong option is produced by one of the three wrong-answer shifts |
| QuestionPool.Unused | js/game.js:236-241 | the candidate list holds exactly the pool indices not yet used |
| QuestionPool.UnusedEmptyIffExhausted | js/game.js:243-248 | no candidate is left exactly when every index has been used |
| QuestionPool.CandidatesNonEmpty | js/game.js:243-250 | after the refill a non-empty pool always has a candidate |
| QuestionPool.NextQuestion | js/game.js:235-253 | a draw returns a pool index and records it; a fresh index is appended to the used list; an exhausted list is restarted with the drawn index alone |
| QuestionPool.UsedBound | js/game.js:235-253 | a duplicate-free used list never exceeds the pool size, and it is exhausted exactly when it has the pool's size |
| QuestionPool.NextQuestionKeepsUsedOk | js/game.js:235-253 | a draw keeps the used list duplicate-free and within the pool |
| QuestionPool.DrawsDistinctWithinCycle | js/game.js:235-253 | while the pool has room, consecutive draws repeat neither each other nor an earlier index |
| QuestionPool.UnusedIncreasing | js/game.js:236-241 | the candidate list is in increasing index order |
| QuestionPool.NextQuestionCoversCandidates | js/game.js:243-252 | every pool index not in the (refilled) used list is drawn by some pick position |
| QuestionPool.NextQuestionPickInjective | js/game.js:236-252 | different pick positions draw different indices, so a uniform position is a uniform question among the candidates |
| QuestionPool.UnusedDistinct | js/game.js:236-241 | the candidate list never repeats an index |
| QuestionPool.CandidateCount | js/game.js:236-241 | before the pool runs out, a draw chooses among exactly pool size minus used-list length candidates |
| QuestionPool.PicksFitValid | js/game.js:235-253 | picks that each stay below the number of candidates left at their draw are valid for the whole run of draws |
| QuestionPool.FreshCycleDistinct | js/game.js:235-253 | up to n draws from an empty used list, each a position among the candidates left, are valid and pairwise distinct |
| QuestionPool.PoolCycleDistinct | js/game.js:235-253 | any 37 consecutive draws from an empty used list, each a position among the candidates left, are valid and pairwise distinct |
| Ai.Scan | js/game.js:204-209 | the subtraction loop returns a position of the table, or the last one when it runs out |
| Ai.WeightedRandom | js/game.js:202-210 | the weighted draw returns a valid position (-1 only for an empty table) |
| Ai.WeightedRandomFindsFirstCover | js/game.js:202-210 | the draw picks the first position whose cumulative weight reaches the scaled draw, or the last position when none does |
| Ai.NoFallbackForPositiveTotal | js/game.js:203-210 | with a positive total, the scaled draw always lands in a bucket, so the fallback return is never needed |
| Ai.ScaledDrawBelow | js/game.js:204 | a draw in [0, 1) scaled by a positive total stays below the total |
| Ai.LastCoversBelowTotal | js/game.js:205-209 | a value below a positive total is reached by the last cumulative weight at the latest |
| Ai.ChosenBucketHasWeight | js/game.js:205-207 | with non-negative weights and a positive draw, a zero-weight position is never chosen |
| Ai.StrategiesWellFormed | js/config.js:114-131 | every configured table has six non-negative weights with a positive sum |
| Ai.StrategyForWellFormed | js/game.js:219-221 | the table chosen for a difficulty and role is one of those well-formed tables |
| Ai.GetComputerNumber | js/game.js:218-229 | the computer's number is a scoring value, and with the restricted set it is 0 or 1 |
| Ai.RestrictedPickTakesBoth | js/game.js:223-225 | with the restricted set, both 0 and 1 are the computer's number for some draw |
| Ai.ComputerNumberIsPermitted | js/game.js:218-229 | with either permitted set, the computer's number lies in that set |
| Ai.ComputerNumberFollowsStrategy | js/game.js:219-228 | with the full set, the number is the scoring value of the first-cover bucket of the role's table |
| Delivery.DeliveryRule | js/game.js:575-597 | the batting side gets every number exactly when it answered right, and a no-ball exactly when it did and the bowler did not; otherwise it gets [0, 1] |
| Delivery.RuleIsSideSymmetric | js/game.js:579-597 | the player-batting and computer-batting branch chains apply the same table by role |
| Delivery.SampleRows | js/game.js:579-585 | a lone correct batter earns a no-ball with every number; a lone wrong batter is held to [0, 1] |
| Delivery.EnabledButtons | js/game.js:638-644 | the enabled buttons are the laid-out numbers that are permitted |
| Delivery.EnabledButtonsArePermitted | js/game.js:638-644 | with either permitted set, the enabled buttons are exactly the permitted numbers |
| Ball.Resolve | js/game.js:680-711 | equal numbers take a wicket unless it is a no-ball; a wicket costs the penalty floored at zero; different numbers add the batting number; a no-ball match changes nothing |
| Ball.SampleOutcomes | js/game.js:684-711 | a wicket on 10 runs leaves 0; a no-ball match keeps 10; a 4 on 20 makes 24 |
| MatchResult.Decide | js/game.js:1238-1263 | the player's team wins, loses or ties exactly as its first-innings score is above, below or equal to the second, with the positive difference as margin |
| MatchResult.DecideMirror | js/game.js:1249-1263 | swapping the scores swaps a win for a loss with the same margin |
| MatchResult.SampleResults | js/game.js:1249-1263 | 11 against 12 is a loss by one; 40 against 40 is a tie |
| Game.Initial | js/game.js:158-189 | the fresh state's innings length `totalBalls` is its overs times six |
| Game.SelectCountry | js/game.js:458-462 | the chosen team and its configured opponent from the team table are recorded, and nothing else changes |
| Game.SelectDifficulty | js/game.js:468-481 | the given difficulty is recorded and has an AI strategy, and nothing else changes |
| Game.StartMatch | js/game.js:486-496 | the match length is fixed at overs times six balls; the first question is the one drawn from the used list, which the draw updates; the player's answer is cleared and the computer's answer is the one its coin and wrong-answer shift give for that question; nothing else changes |
| Game.StartQuestionPhase | js/game.js:501-508 | a pool question is asked with no player answer; unless every question was used it is a new one appended to the used list, otherwise the list restarts with it alone; the computer's answer is a valid option that is correct exactly when its coin says so; the asked question and the new used list are exactly those of the draw; the used list stays duplicate-free; nothing else changes |
| Game.SubmitAnswer | js/game.js:539-564 | with no chosen answer nothing happens; otherwise both sides' correctness against the question's index is recorded, the delivery phase starts, and the permitted set and no-ball flag are the delivery rule's row for the recorded flags by role; nothing else changes |
| Game.StartDeliveryPhase | js/game.js:571-597 | the delivery rule is applied by the state's batting side, and nothing else changes |
| Game.SelectNumber | js/game.js:654-737 | a pick during processing changes nothing; otherwise the ball is processed with the player's number and the computer's number, drawn from its bowler table while the player bats and its batsman table while the player bowls, and one ball is counted; only the processing flag, phase, the two numbers, runs, wickets, history, progressions and ball and over counters change |
| Game.RecordBall | js/game.js:680-731 | a wicket adds one wicket and sets runs to the penalty floored at zero; a no-ball match keeps runs; different numbers add the batting number; one history record and one progression point are appended to the innings in play, and the other progression is left alone |
| Game.SelectOption | js/game.js:529-534 | choosing an option records it as the player's answer, and nothing else changes |
| Game.AdvanceClock | js/game.js:731-737 | one ball is counted and the over counters roll over after six balls |
| Game.NextBall | js/game.js:845-878 | processing ends; the innings ends exactly when its balls are used or, in innings 2, the target is reached; otherwise the next question is the one drawn from the used list, with the draw's used list, a cleared player answer and the computer's answer its coin gives |
| Game.NextBallKeepsRest | js/game.js:845-878 | the next ball changes only the phase, processing flag, scores and question slots; at an innings break the used list and current question are kept |
| Game.NextBallFreezesScore | js/game.js:849-877 | an ending innings freezes its runs and wickets into its own score, and the break is final exactly after innings 2; while play goes on neither score changes |
| Game.EndInnings | js/game.js:849-871 | the innings in play is frozen into its score and the other score is untouched |
| Game.ShowSummary | js/game.js:1233-1234 | the summary only changes the phase |
| Game.ContinueFromInningsBreak | js/game.js:970-988 | after innings 2 the summary is shown; after innings 1 the per-innings state is reset, the computer bats, the first score and both progressions are kept, and the first question of innings 2 is the one drawn from the used list, with the draw's used list, a cleared player answer and the computer's answer its coin gives |
| GameInvariants.InitialValid | js/game.js:1272-1273 | the fresh state, which is also what a restart returns, satisfies the match invariant |
| GameInvariants.SelectCountryValid | js/game.js:458-462 | picking a team keeps the invariant |
| GameInvariants.SelectCountryPairsOpponent | js/game.js:458-462 | picking an available team records an available opponent that names it back |
| GameInvariants.SelectDifficultyValid | js/game.js:468-481 | picking a difficulty keeps the invariant |
| GameInvariants.StartMatchValid | js/game.js:486-496 | starting a match of at least one over keeps the invariant |
| GameInvariants.SelectOptionValid | js/game.js:529-534 | choosing an option keeps the invariant |
| GameInvariants.SubmitAnswerValid | js/game.js:539-564 | submitting an answer keeps the invariant |
| GameInvariants.SelectNumberValid | js/game.js:654-743 | picking a number keeps the invariant: ball counts within the innings, runs non-negative, a chase at most six past the first score |
| GameInvariants.PickedBallValid | js/game.js:654-667 | fixing both numbers keeps the invariant, with a batting number from 0 to 6 |
| GameInvariants.ResolvedBallValid | js/game.js:672-743 | scoring and counting a ball the innings had room for keeps the invariant |
| GameInvariants.NextBallValid | js/game.js:845-878 | the next-ball event keeps the invariant |
| GameInvariants.EndInningsValid | js/game.js:849-877 | closing an innings whose balls are used or whose chase is won keeps the invariant |
| GameInvariants.AskNextValid | js/game.js:872-877 | asking the next question of an innings still in play keeps the invariant |
| GameInvariants.ContinueValid | js/game.js:970-988 | leaving the innings break keeps the invariant |
| GameInvariants.SelectNumberIgnoresRepeat | js/game.js:655-656 | a second pick before the next ball leaves the state unchanged |
| GameInvariants.ComputerPickPermitted | js/game.js:658-664 | the computer's number lies in the ball's permitted set |
| GameInvariants.SelectNumberResolvesOneBall | js/game.js:672-737 | one pick scores exactly one ball: a wicket with the floored penalty, a no-ball escape with no change, or the batting number added; one history record and one progression point are appended |
| GameInvariants.SecondInningsStopsAtTarget | js/game.js:863-871 | once innings 2 reaches the target, the next ball ends the match with that score frozen |
| GameInvariants.SummaryResult | js/game.js:1233-1263 | at the summary the result follows the two frozen scores, and a computer win is by at most six runs |
| GameInvariants.ChaseEndsEarly | js/game.js:845-878 | chasing 11 in one over, 12 runs after four balls ends the match, which the player's team loses by one |

## Left out

- Screens, the DOM, transitions, animations, commentary text, the worm chart drawing, the scoreboard and the explainer are left out. They only display the state.
- Team names, flags and flag classes are left out. The state keeps only the team keys and each team's opponent key.
- Timers are left out. The 1.2-second delay before the delivery phase is modelled as an immediate transition.
- Math.random is left out. Its values are parameters of the transitions, and no probabilities are modelled. The 0.66 chance of a correct computer answer becomes the `computerCorrect` flag.
- Ai.WeightedRandom: the weighted draw uses exact reals. The source uses floating point, whose rounding in `random -= weights[i]` is not modelled.
- The range of the overs slider lives in the page markup, which is not part of this model. `StartMatch` takes any integer, and the invariant lemma assumes at least one over.
- GameInvariants.SelectNumberValid: the phase in which each event may arrive is assumed through the lemma preconditions. This mirrors the buttons each screen shows, which the model does not contain.
- Game.SelectNumber: the source reads the strategy table with the recorded difficulty. A missing difficulty would be a runtime error there, so the model requires a configured difficulty.
- QuestionPool.PoolCycleDistinct: states distinctness of a run of consecutive draws, not of the questions of a whole match. A match-long trace of events is not modelled; instead each asking event (Game.StartMatch, Game.NextBall, Game.ContinueFromInningsBreak) states that it asks exactly the drawn question and keeps the draw's used list, and an innings break keeps the list as it was.
- The team records read while building the result commentary are not modelled.
- Game.ShowResult, Game.FinalResult and Game.Restart have no contracts of their own. They are stated through SelectNumberResolvesOneBall, SummaryResult and InitialValid.

=== FILE: ai.dfy ===
/**
 * The computer's number pick: a fair coin over {0, 1} when the batting side
 * is restricted, otherwise a weighted draw over the strategy table of the
 * difficulty and role.
 */
module Ai {
  import Config

  /** One uniform draw from the random source, in [0, 1). */
  type Draw = r: real | 0.0 <= r < 1.0 witness 0.0

  /** The sum of the first `k` weights. */
  function Prefix(w: seq<int>, k: nat): int
    requires k <= |w|
  {
    if k == 0 then 0 else Prefix(w, k - 1) + w[k - 1]
  }

  /** The sum of all weights. */
  function Total(w: seq<int>): int {
    Prefix(w, |w|)
  }

  /** The cumulative weight up to and including position `j`. */
  function Through(w: seq<int>, j: nat): int
    requires j < |w|
  {
    Prefix(w, j + 1)
  }

  /**
   * The scan of the weighted draw from position `i`, with `remaining` the part
   * of the drawn value not yet consumed: subtract each weight in turn and stop
   * at the first position where nothing positive remains; fall back to the
   * last position when the scan runs off the end.
   */
  function Scan(w: seq<int>, remaining: real, i: nat): (k: int)
    requires i <= |w|
    ensures i < |w| ==> i <= k < |w|
    ensures i == |w| ==> k == |w| - 1
    decreases |w| - i
  {
    if i == |w| then |w| - 1
    else
      var rest := remaining - w[i] as real;
      if rest <= 0.0 then i else Scan(w, rest, i + 1)
  }

  /** The weighted draw: `u` scaled by the total weight, then scanned. */
  function WeightedRandom(w: seq<int>, u: Draw): (k: int)
    ensures |w| == 0 ==> k == -1
    ensures |w| > 0 ==> 0 <= k < |w|
  {
    Scan(w, u * Total(w) as real, 0)
  }

  /** `k` is the first position whose cumulative weight reaches `r`. */
  ghost predicate FirstCover(w: seq<int>, r: real, k: int) {
    && 0 <= k < |w|
    && r <= Through(w, k) as real
    && forall j :: 0 <= j < k ==> Through(w, j) as real < r
  }

  /** No cumulative weight reaches `r`. */
  ghost predicate NoCover(w: seq<int>, r: real) {
    forall j :: 0 <= j < |w| ==> Through(w, j) as real < r
  }

  lemma {:induction false} ScanFindsFirstCover(w: seq<int>, r: real, remaining: real, i: nat)
    requires i <= |w|
    requires remaining == r - Prefix(w, i) as real
    requires forall j :: 0 <= j < i ==> Through(w, j) as real < r
    ensures FirstCover(w, r, Scan(w, remaining, i)) || (NoCover(w, r) && Scan(w, remaining, i) == |w| - 1)
    decreases |w| - i
  {
    if i < |w| {
      var rest := remaining - w[i] as real;
      assert rest == r - Through(w, i) as real;
      if rest > 0.0 {
        ScanFindsFirstCover(w, r, rest, i + 1);
      }
    }
  }

  /**
   * The weighted draw returns the first position whose cumulative weight
   * reaches the scaled draw, or the last position when none does.
   */
  lemma WeightedRandomFindsFirstCover(w: seq<int>, u: Draw)
    ensures var r := u * Total(w) as real;
      FirstCover(w, r, WeightedRandom(w, u)) || (NoCover(w, r) && WeightedRandom(w, u) == |w| - 1)
  {
    ScanFindsFirstCover(w, u * Total(w) as real, u * Total(w) as real, 0);
  }

  /** A draw scaled by a positive total stays below that total. */
  lemma ScaledDrawBelow(u: Draw, t: real)
    requires t > 0.0
    ensures u * t < t
  {
    var gap := 1.0 - u;
    assert gap > 0.0;
    assert gap * t > 0.0;
    assert t - u * t == gap * t;
  }

  /** With a positive total the fallback is never needed: the draw lands in a bucket. */
  lemma NoFallbackForPositiveTotal(w: seq<int>, u: Draw)
    requires Total(w) > 0
    ensures FirstCover(w, u * Total(w) as real, WeightedRandom(w, u))
  {
    var t := Total(w) as real;
    ScaledDrawBelow(u, t);
    LastCoversBelowTotal(w, u * t);
    WeightedRandomFindsFirstCover(w, u);
  }

  /** A value below the total is reached by the last cumulative weight at the latest. */
  lemma LastCoversBelowTotal(w: seq<int>, r: real)
    requires r < Total(w) as real
    requires Total(w) > 0
    ensures !NoCover(w, r)
  {
    assert |w| > 0;
    var last := Through(w, |w| - 1);
    assert last == Total(w);
    assert !(last as real < r);
  }

  /**
   * With non-negative weights, the chosen position carries positive weight
   * unless the draw is exactly zero: a zero-weight option is never picked
   * by a positive draw.
   */
  lemma ChosenBucketHasWeight(w: seq<int>, r: real, k: int)
    requires forall i :: 0 <= i < |w| ==> w[i] >= 0
    requires FirstCover(w, r, k)
    requires r > 0.0
    ensures w[k] > 0
  {
    if k > 0 {
      assert Through(w, k - 1) as real < r;
      assert Through(w, k) == Through(w, k - 1) + w[k];
      assert (Through(w, k - 1) as real) < (Through(w, k) as real);
    } else {
      assert Prefix(w, 1) == Prefix(w, 0) + w[0];
    }
  }

  /** A weight table fit for the draw: six non-negative weights with a positive sum. */
  predicate WellFormedDist(d: seq<int>) {
    && |d| == |Config.ScoringOptions|
    && (forall i :: 0 <= i < |d| ==> d[i] >= 0)
    && Total(d) > 0
  }

  /** Every configured strategy table is fit for the draw. */
  lemma StrategiesWellFormed()
    ensures forall k :: k in Config.AiStrategies ==>
      && WellFormedDist(Config.AiStrategies[k].bowler.dist)
      && WellFormedDist(Config.AiStrategies[k].batsman.dist)
  {
    forall k | k in Config.AiStrategies
      ensures WellFormedDist(Config.AiStrategies[k].bowler.dist)
      ensures WellFormedDist(Config.AiStrategies[k].batsman.dist)
    {
      assert k in Config.AiStrategies.Keys;
      assert k == "easy" || k == "medium" || k == "hard" || k == "legendary";
    }
  }

  /** Exactly the restricted two-number set `[0, 1]`. */
  predicate IsRestricted(available: seq<int>) {
    |available| == 2 && available[0] == 0 && available[1] == 1
  }

  /** The strategy the computer plays for a difficulty and role. */
  function StrategyFor(difficulty: string, isBatting: bool): Config.Strategy
    requires difficulty in Config.AiStrategies
  {
    var level := Config.AiStrategies[difficulty];
    if isBatting then level.batsman else level.bowler
  }

  /** The table the computer draws from is fit for the draw. */
  lemma StrategyForWellFormed(difficulty: string, isBatting: bool)
    requires difficulty in Config.AiStrategies
    ensures WellFormedDist(StrategyFor(difficulty, isBatting).dist)
  {
    StrategiesWellFormed();
  }

  /**
   * The computer's number: a coin over 0 and 1 when the set is restricted,
   * otherwise the scoring option at the weighted draw's position.
   */
  function GetComputerNumber(difficulty: string, isBatting: bool, available: seq<int>, u: Draw): (n: int)
    requires difficulty in Config.AiStrategies
    ensures n in Config.ScoringOptions
    ensures IsRestricted(available) ==> n == 0 || n == 1
  {
    StrategyForWellFormed(difficulty, isBatting);
    if IsRestricted(available) then
      (if u < 0.5 then 0 else 1)
    else
      Config.ScoringOptions[WeightedRandom(StrategyFor(difficulty, isBatting).dist, u)]
  }

  /** The pick always lies in the permitted set, whichever of the two sets it is. */
  lemma ComputerNumberIsPermitted(difficulty: string, isBatting: bool, available: seq<int>, u: Draw)
    requires difficulty in Config.AiStrategies
    requires available == Config.ScoringOptions || available == Config.RestrictedOptions
    ensures GetComputerNumber(difficulty, isBatting, available, u) in available
  {
  }

  /** With the restricted set, each of the two numbers is the pick for some draw. */
  lemma RestrictedPickTakesBoth(difficulty: string, isBatting: bool, available: seq<int>)
    requires difficulty in Config.AiStrategies
    requires IsRestricted(available)
    ensures exists u: Draw :: GetComputerNumber(difficulty, isBatting, available, u) == 0
    ensures exists u: Draw :: GetComputerNumber(difficulty, isBatting, available, u) == 1
  {
    assert GetComputerNumber(difficulty, isBatting, available, 0.0) == 0;
    assert GetComputerNumber(difficulty, isBatting, available, 0.5) == 1;
  }

  /**
   * With the full set, the pick is the scoring option of the bucket the
   * scaled draw falls into in the strategy's table.
   */
  lemma ComputerNumberFollowsStrategy(difficulty: string, isBatting: bool, available: seq<int>, u: Draw)
    requires difficulty in Config.AiStrategies
    requires !IsRestricted(available)
    ensures var w := StrategyFor(difficulty, isBatting).dist;
      var k := WeightedRandom(w, u);
      && FirstCover(w, u * Total(w) as real, k)
      && GetComputerNumber(difficulty, isBatting, available, u) == Config.ScoringOptions[k]
  {
    var w := StrategyFor(difficulty, isBatting).dist;
    StrategyForWellFormed(difficulty, isBatting);
    NoFallbackForPositiveTotal(w, u);
  }
}

=== FILE: ball.dfy ===
/**
 * The outcome of one ball: matching numbers take a wicket (with a run
 * penalty floored at zero) unless the ball is a no-ball; different numbers
 * score the batting side's number.
 */
module Ball {
  import Config

  /** The runs credited to the ball, whether a wicket fell, and the new total. */
  datatype Outcome = Outcome(runsScored: int, isWicket: bool, newRuns: int)

  function Max(a: int, b: int): int {
    if a >= b then a else b
  }

  function Resolve(battingNumber: int, bowlingNumber: int, isNoBall: bool, runs: int): (o: Outcome)
    ensures o.isWicket <==> battingNumber == bowlingNumber && !isNoBall
    ensures !o.isWicket ==> o.newRuns == runs + o.runsScored
    ensures o.runsScored != 0 ==> o.runsScored == battingNumber && battingNumber != bowlingNumber
    ensures battingNumber != bowlingNumber ==> o.runsScored == battingNumber
    ensures o.isWicket ==>
      && o.runsScored == 0
      && o.newRuns >= 0
      && o.newRuns >= runs - Config.WicketPenalty
      && (o.newRuns == 0 || o.newRuns == runs - Config.WicketPenalty)
    ensures runs >= 0 && battingNumber >= 0 ==> o.newRuns >= 0
  {
    var numbersMatch := battingNumber == bowlingNumber;
    if numbersMatch && !isNoBall then
      Outcome(0, true, Max(0, runs - Config.WicketPenalty))
    else if numbersMatch then
      Outcome(0, false, runs)
    else
      Outcome(battingNumber, false, runs + battingNumber)
  }

  /** Worked outcomes: a wicket on 10 runs floors at 0; a no-ball match keeps the total; a 4 on 20 makes 24. */
  lemma SampleOutcomes()
    ensures Resolve(3, 3, false, 10) == Outcome(0, true, 0)
    ensures Resolve(3, 3, true, 10) == Outcome(0, false, 10)
    ensures Resolve(4, 2, false, 20) == Outcome(4, false, 24)
  {
  }
}

=== FILE: config.dfy ===
/**
 * Game constants and configuration tables: scoring options, the penalty for
 * a wicket, the over length, the team pairings and the AI weight tables.
 */
module Config {

  /** The run values a side may pick, in table order. */
  const ScoringOptions: seq<int> := [0, 1, 2, 3, 4, 6]

  /** The order in which the number buttons are laid out. */
  const DisplayOrder: seq<int> := [4, 6, 2, 3, 0, 1]

  /** The restricted number set offered to a batting side that answered wrongly. */
  const RestrictedOptions: seq<int> := [0, 1]

  /** Runs deducted when a wicket falls. */
  const WicketPenalty: int := 15

  const BallsPerOver: int := 6

  /** The overs a fresh match state starts with (before the slider is read). */
  const DefaultOvers: int := 3

  /** A team's default opponent key and whether it can be picked. */
  datatype Team = Team(opponent: string, available: bool)

  const Teams: map<string, Team> := map[
    "england" := Team("australia", true),
    "australia" := Team("england", true),
    "india" := Team("pakistan", true),
    "pakistan" := Team("india", true),
    "newzealand" := Team("southafrica", false),
    "southafrica" := Team("newzealand", false),
    "westindies" := Team("srilanka", false),
    "srilanka" := Team("westindies", false),
    "zimbabwe" := Team("kenya", false)
  ]

  /** A named AI player with six weights aligned to `ScoringOptions`. */
  datatype Strategy = Strategy(name: string, dist: seq<int>)

  /** The two strategies of one difficulty level. */
  datatype Level = Level(bowler: Strategy, batsman: Strategy)

  const AiStrategies: map<string, Level> := map[
    "easy" := Level(Strategy("Monty", [17, 17, 17, 16, 17, 16]),
                    Strategy("Grace", [5, 8, 13, 20, 28, 26])),
    "medium" := Level(Strategy("Kumble", [18, 15, 15, 16, 18, 18]),
                      Strategy("Gavaskar", [3, 5, 9, 18, 32, 33])),
    "hard" := Level(Strategy("Warne", [12, 10, 12, 14, 23, 29]),
                    Strategy("Bradman", [2, 4, 7, 15, 32, 40])),
    "legendary" := Level(Strategy("Murali", [8, 8, 10, 12, 28, 34]),
                         Strategy("Tendulkar", [1, 3, 5, 12, 34, 45]))
  ]

  const DifficultyNames: map<string, string> := map[
    "easy" := "Easy",
    "medium" := "Medium",
    "hard" := "Hard",
    "legendary" := "Legendary"
  ]

  /** The six scoring values are distinct and non-negative. */
  lemma ScoringOptionsDistinct()
    ensures |ScoringOptions| == 6
    ensures forall i, j :: 0 <= i < j < |ScoringOptions| ==> ScoringOptions[i] != ScoringOptions[j]
    ensures forall i :: 0 <= i < |ScoringOptions| ==> ScoringOptions[i] >= 0
  {
  }

  /**
   * Every permitted number has exactly one button: the layout has the same
   * length as the scoring values, no repeats and the same members, so it is
   * a reordering of them.
   */
  lemma DisplayOrderIsPermutation()
    ensures |DisplayOrder| == |ScoringOptions|
    ensures forall i, j :: 0 <= i < j < |DisplayOrder| ==> DisplayOrder[i] != DisplayOrder[j]
    ensures forall n :: n in ScoringOptions <==> n in DisplayOrder
  {
    forall n ensures n in ScoringOptions <==> n in DisplayOrder {
      assert n in ScoringOptions <==> n == 0 || n == 1 || n == 2 || n == 3 || n == 4 || n == 6;
      assert n in DisplayOrder <==> n == 4 || n == 6 || n == 2 || n == 3 || n == 0 || n == 1;
    }
  }

  /** The restricted set is a subset of the full one. */
  lemma RestrictedWithinScoring()
    ensures forall n :: n in RestrictedOptions ==> n in ScoringOptions
  {
  }

  /** Every difficulty offered by name has an AI strategy pair. */
  lemma DifficultiesHaveStrategies()
    ensures DifficultyNames.Keys == AiStrategies.Keys
  {
  }

  /** An available team's opponent is itself available and names it back. */
  lemma AvailableOpponentsPaired()
    ensures forall k :: k in Teams && Teams[k].available ==>
      && Teams[k].opponent in Teams
      && Teams[Teams[k].opponent].available
      && Teams[Teams[k].opponent].opponent == k
      && Teams[k].opponent != k
  {
    forall k | k in Teams && Teams[k].available
      ensures Teams[k].opponent in Teams
      ensures Teams[Teams[k].opponent].available
      ensures Teams[Teams[k].opponent].opponent == k
      ensures Teams[k].opponent != k
    {
      PairedOne(k);
    }
  }

  /** The pairing for one available team, checked key by key. */
  lemma PairedOne(k: string)
    requires k in Teams && Teams[k].available
    ensures Teams[k].opponent in Teams
    ensures Teams[Teams[k].opponent].available
    ensures Teams[Teams[k].opponent].opponent == k
    ensures Teams[k].opponent != k
  {
    assert k in Teams.Keys;
    if k == "england" {
      assert Teams[k].opponent == "australia";
    } else if k == "australia" {
      assert Teams[k].opponent == "england";
    } else if k == "india" {
      assert Teams[k].opponent == "pakistan";
    } else if k == "pakistan" {
      assert Teams[k].opponent == "india";
    } else {
      assert false;
    }
  }

  /** The unavailable Zimbabwe entry points at a key the table does not have. */
  lemma ZimbabweOpponentMissing()
    ensures "zimbabwe" in Teams && !Teams["zimbabwe"].available
    ensures Teams["zimbabwe"].opponent !in Teams
  {
  }

  /** The default match length agrees with the default ball count of 18. */
  lemma DefaultBallCount()
    ensures DefaultOvers * BallsPerOver == 18
  {
  }
}

=== FILE: delivery.dfy ===
/**
 * The delivery rule: the two sides' quiz correctness decides which numbers
 * the batting side may pick and whether the ball is a no-ball.
 */
module Delivery {
  import Config

  /** The permitted numbers for the ball and the no-ball flag. */
  datatype Constraint = Constraint(available: seq<int>, isNoBall: bool)

  /**
   * The rule stated once, by role: a wrong batting side is restricted to
   * 0 and 1; a right batting side gets every number, and a no-ball too
   * when the bowling side was wrong.
   */
  function SideTable(battingCorrect: bool, bowlingCorrect: bool): Constraint {
    match (battingCorrect, bowlingCorrect)
    case (false, true) => Constraint(Config.RestrictedOptions, false)
    case (true, false) => Constraint(Config.ScoringOptions, true)
    case (false, false) => Constraint(Config.RestrictedOptions, false)
    case (true, true) => Constraint(Config.ScoringOptions, false)
  }

  /** The batting side's correctness, given who bats. */
  function BattingCorrect(playerBatting: bool, playerCorrect: bool, computerCorrect: bool): bool {
    if playerBatting then playerCorrect else computerCorrect
  }

  /** The bowling side's correctness, given who bats. */
  function BowlingCorrect(playerBatting: bool, playerCorrect: bool, computerCorrect: bool): bool {
    if playerBatting then computerCorrect else playerCorrect
  }

  /**
   * The rule as the delivery phase applies it, with one branch chain for the
   * player batting and another for the computer batting.
   */
  function DeliveryRule(playerBatting: bool, playerCorrect: bool, computerCorrect: bool): (c: Constraint)
    ensures c.available == Config.ScoringOptions || c.available == Config.RestrictedOptions
    ensures c.isNoBall <==>
      BattingCorrect(playerBatting, playerCorrect, computerCorrect)
      && !BowlingCorrect(playerBatting, playerCorrect, computerCorrect)
    ensures c.available == Config.ScoringOptions <==> BattingCorrect(playerBatting, playerCorrect, computerCorrect)
    ensures c.isNoBall ==> c.available == Config.ScoringOptions
  {
    if playerBatting then
      if !playerCorrect && computerCorrect then Constraint(Config.RestrictedOptions, false)
      else if playerCorrect && !computerCorrect then Constraint(Config.ScoringOptions, true)
      else if !playerCorrect && !computerCorrect then Constraint(Config.RestrictedOptions, false)
      else Constraint(Config.ScoringOptions, false)
    else
      if !computerCorrect && playerCorrect then Constraint(Config.RestrictedOptions, false)
      else if computerCorrect && !playerCorrect then Constraint(Config.ScoringOptions, true)
      else if !computerCorrect && !playerCorrect then Constraint(Config.RestrictedOptions, false)
      else Constraint(Config.ScoringOptions, false)
  }

  /** Both branch chains apply the same role-based table: the rule does not care who bats. */
  lemma RuleIsSideSymmetric(playerBatting: bool, playerCorrect: bool, computerCorrect: bool)
    ensures DeliveryRule(playerBatting, playerCorrect, computerCorrect)
      == SideTable(BattingCorrect(playerBatting, playerCorrect, computerCorrect),
                   BowlingCorrect(playerBatting, playerCorrect, computerCorrect))
  {
  }

  /** The two sample rows: a lone correct batter earns a no-ball, a lone wrong batter is restricted. */
  lemma SampleRows()
    ensures SideTable(true, false) == Constraint([0, 1, 2, 3, 4, 6], true)
    ensures SideTable(false, true) == Constraint([0, 1], false)
  {
  }

  /**
   * The number buttons left enabled: the display order kept where the
   * number is permitted, so a pick can only be a permitted number.
   */
  function EnabledButtons(display: seq<int>, available: seq<int>): (b: seq<int>)
    ensures forall n :: n in b <==> n in display && n in available
    ensures |b| <= |display|
  {
    if |display| == 0 then []
    else
      var rest := EnabledButtons(display[1..], available);
      assert forall n :: n in display <==> n == display[0] || n in display[1..];
      if display[0] in available then [display[0]] + rest else rest
  }

  /** With either permitted set, the enabled buttons are exactly the permitted numbers. */
  lemma EnabledButtonsArePermitted(available: seq<int>)
    requires available == Config.ScoringOptions || available == Config.RestrictedOptions
    ensures forall n :: n in EnabledButtons(Config.DisplayOrder, available) <==> n in available
  {
    Config.DisplayOrderIsPermutation();
    Config.RestrictedWithinScoring();
  }
}

=== FILE: game.dfy ===
/**
 * The match engine: a single match state record and one pure transition
 * per event (question, answer, number, next ball, continue). Every random
 * choice the engine makes arrives as an explicit, bounded parameter.
 */
module Game {
  import opened Slots
  import Config
  import Questions
  import QuestionPool
  import Quiz
  import Ai
  import Delivery
  import Ball
  import MatchResult

  /** The phase tag of the state machine; an innings break remembers whether the match is over. */
  datatype Phase =
    | Welcome
    | QuestionPhase
    | DeliveryPhase
    | ResultPhase
    | InningsBreak(matchComplete: bool)
    | Summary

  /** A recorded innings score. */
  datatype Score = Score(runs: int, wickets: int)

  /** One ball as kept in the history: both sides' quiz correctness, the batting number, the wicket flag. */
  datatype BallRecord = BallRecord(playerCorrect: bool, computerCorrect: bool, numberChosen: int, wicket: bool)

  /** One point of an innings' run progression. */
  datatype WormPoint = WormPoint(ball: int, runs: int, wicket: bool, six: bool)

  /**
   * The whole match state. `currentQuestion` is the question's index in the
   * pool; `worm1` and `worm2` are the two innings' progressions.
   */
  datatype GameState = GameState(
    playerTeam: Option<string>,
    opponentTeam: Option<string>,
    difficulty: Option<string>,
    overs: int,
    totalBalls: int,
    currentInnings: int,
    playerBatting: bool,
    ballCount: int,
    runs: int,
    wickets: int,
    currentOver: int,
    ballsInOver: int,
    ballHistory: seq<BallRecord>,
    worm1: seq<WormPoint>,
    worm2: seq<WormPoint>,
    firstInningsScore: Score,
    secondInningsScore: Score,
    phase: Phase,
    currentQuestion: Option<nat>,
    playerAnswer: Option<int>,
    computerAnswer: Option<int>,
    playerNumber: Option<int>,
    computerNumber: Option<int>,
    availableNumbers: seq<int>,
    isNoBall: bool,
    usedQuestions: seq<nat>,
    isProcessing: bool,
    lastPlayerCorrect: bool,
    lastComputerCorrect: bool)

  /** A fresh match state; also what a restart returns to. */
  function Initial(): (s: GameState)
    ensures s.totalBalls == s.overs * Config.BallsPerOver
  {
    GameState(
      None, None, None,
      Config.DefaultOvers, 18,
      1, true,
      0, 0, 0, 0, 0,
      [], [], [],
      Score(0, 0), Score(0, 0),
      Welcome,
      None, None, None, None, None,
      Config.ScoringOptions, false,
      [],
      false, false, false)
  }

  /** The ball and over counters agree: `ballCount` is whole overs plus the balls of the current one. */
  predicate OverClock(s: GameState) {
    && s.currentOver >= 0
    && 0 <= s.ballsInOver < Config.BallsPerOver
    && s.currentOver * Config.BallsPerOver + s.ballsInOver == s.ballCount
  }

  /** The progression of the innings in play. */
  function CurrentWorm(s: GameState): seq<WormPoint> {
    if s.currentInnings == 1 then s.worm1 else s.worm2
  }

  /** The correct option of the question in play. */
  function CorrectIndex(s: GameState): int
    requires s.currentQuestion.Some? && s.currentQuestion.value < Questions.PoolSize
  {
    Questions.CorrectOption(s.currentQuestion.value)
  }

  // ---------------------------------------------------------------------------
  // Match setup
  // ---------------------------------------------------------------------------

  /** Picking a team also fixes its configured opponent. */
  function SelectCountry(s: GameState, teamKey: string): (t: GameState)
    requires teamKey in Config.Teams
    ensures t.playerTeam == Some(teamKey)
    ensures t.opponentTeam == Some(Config.Teams[teamKey].opponent)
    ensures t.(playerTeam := s.playerTeam, opponentTeam := s.opponentTeam) == s
  {
    s.(playerTeam := Some(teamKey), opponentTeam := Some(Config.Teams[teamKey].opponent))
  }

  /**
   * Picking a difficulty; the match preview reads both team records, so
   * both keys must name a configured team.
   */
  function SelectDifficulty(s: GameState, difficulty: string): (t: GameState)
    requires difficulty in Config.DifficultyNames
    requires s.playerTeam.Some? && s.playerTeam.value in Config.Teams
    requires s.opponentTeam.Some? && s.opponentTeam.value in Config.Teams
    ensures t.difficulty == Some(difficulty) && difficulty in Config.AiStrategies
    ensures t.(difficulty := s.difficulty) == s
  {
    Config.DifficultiesHaveStrategies();
    s.(difficulty := Some(difficulty))
  }

  /** The random draws one question phase consumes. */
  datatype QuestionDraws = QuestionDraws(pick: nat, computerCorrect: bool, wrongOffset: nat)

  /** The draws are in range: a position among the candidates and an offset below three. */
  predicate DrawsFit(d: QuestionDraws, used: seq<nat>) {
    d.pick < |QuestionPool.Candidates(used, Questions.PoolSize)| && d.wrongOffset < 3
  }

  /**
   * `t` asks the question the draw `d` picks from the used list `used`,
   * keeps the used list the draw leaves behind, clears the player's answer and
   * holds the computer's answer the draw's coin and wrong-answer shift give.
   */
  predicate AsksDrawn(used: seq<nat>, d: QuestionDraws, t: GameState)
    requires DrawsFit(d, used)
  {
    var drawn := QuestionPool.NextQuestion(used, Questions.PoolSize, d.pick);
    && t.currentQuestion == Some(drawn.index)
    && t.usedQuestions == drawn.used
    && t.playerAnswer.None?
    && t.computerAnswer == Some(Quiz.ComputerAnswer(Questions.CorrectOption(drawn.index), d.computerCorrect, d.wrongOffset))
  }

  /** Starting the match fixes its length, then asks the first question. */
  function StartMatch(s: GameState, overs: int, d: QuestionDraws): (t: GameState)
    requires DrawsFit(d, s.usedQuestions)
    ensures t.overs == overs && t.totalBalls == overs * Config.BallsPerOver
    ensures t.phase == QuestionPhase && AsksDrawn(s.usedQuestions, d, t)
    ensures t.(overs := s.overs, totalBalls := s.totalBalls, phase := s.phase,
               currentQuestion := s.currentQuestion, usedQuestions := s.usedQuestions,
               playerAnswer := s.playerAnswer, computerAnswer := s.computerAnswer) == s
  {
    StartQuestionPhase(s.(overs := overs, totalBalls := overs * Config.BallsPerOver), d)
  }

  // ---------------------------------------------------------------------------
  // One ball: question, answer, number
  // ---------------------------------------------------------------------------

  /**
   * Asking a question: draw an unused question and fix the computer's
   * answer before the player answers.
   */
  function StartQuestionPhase(s: GameState, d: QuestionDraws): (t: GameState)
    requires DrawsFit(d, s.usedQuestions)
    ensures t.phase == QuestionPhase
    ensures t.currentQuestion.Some? && t.currentQuestion.value < Questions.PoolSize
    ensures t.playerAnswer.None?
    ensures t.computerAnswer.Some? && 0 <= t.computerAnswer.value < Questions.OptionCount
    ensures t.computerAnswer == Some(CorrectIndex(t)) <==> d.computerCorrect
    ensures AsksDrawn(s.usedQuestions, d, t)
    ensures t.currentQuestion.value in t.usedQuestions
    ensures !QuestionPool.Exhausted(s.usedQuestions, Questions.PoolSize) ==>
      && t.currentQuestion.value !in s.usedQuestions
      && t.usedQuestions == s.usedQuestions + [t.currentQuestion.value]
    ensures QuestionPool.Exhausted(s.usedQuestions, Questions.PoolSize) ==>
      t.usedQuestions == [t.currentQuestion.value]
    ensures QuestionPool.UsedOk(s.usedQuestions, Questions.PoolSize) ==>
      QuestionPool.UsedOk(t.usedQuestions, Questions.PoolSize)
    ensures t.(phase := s.phase, currentQuestion := s.currentQuestion, usedQuestions := s.usedQuestions,
               playerAnswer := s.playerAnswer, computerAnswer := s.computerAnswer) == s
  {
    var drawn := QuestionPool.NextQuestion(s.usedQuestions, Questions.PoolSize, d.pick);
    var answer := Quiz.ComputerAnswer(Questions.CorrectOption(drawn.index), d.computerCorrect, d.wrongOffset);
    QuestionPool.NextQuestionKeepsUsedOk(s.usedQuestions, Questions.PoolSize, d.pick);
    s.(phase := QuestionPhase, currentQuestion := Some(drawn.index), usedQuestions := drawn.used,
       playerAnswer := None, computerAnswer := Some(answer))
  }

  /** Choosing an option only records it; submitting is a separate event. */
  function SelectOption(s: GameState, index: int): (t: GameState)
    ensures t.playerAnswer == Some(index)
    ensures t.(playerAnswer := s.playerAnswer) == s
  {
    s.(playerAnswer := Some(index))
  }

  /**
   * Submitting the answer: ignored when no option is chosen; otherwise both
   * sides' correctness is recorded and the delivery phase starts.
   */
  function SubmitAnswer(s: GameState): (t: GameState)
    requires s.playerAnswer.Some? ==> s.currentQuestion.Some? && s.currentQuestion.value < Questions.PoolSize
    ensures s.playerAnswer.None? ==> t == s
    ensures s.playerAnswer.Some? ==>
      && t.phase == DeliveryPhase
      && (t.lastPlayerCorrect <==> s.playerAnswer.value == CorrectIndex(s))
      && (t.lastComputerCorrect <==> s.computerAnswer == Some(CorrectIndex(s)))
      && Delivery.Constraint(t.availableNumbers, t.isNoBall)
         == Delivery.SideTable(Delivery.BattingCorrect(s.playerBatting, t.lastPlayerCorrect, t.lastComputerCorrect),
                               Delivery.BowlingCorrect(s.playerBatting, t.lastPlayerCorrect, t.lastComputerCorrect))
    ensures s.playerAnswer.Some? ==>
      t.(phase := s.phase, lastPlayerCorrect := s.lastPlayerCorrect, lastComputerCorrect := s.lastComputerCorrect,
         availableNumbers := s.availableNumbers, isNoBall := s.isNoBall) == s
  {
    if s.playerAnswer.None? then s
    else
      var correct := CorrectIndex(s);
      var playerCorrect := s.playerAnswer.value == correct;
      var computerCorrect := s.computerAnswer == Some(correct);
      StartDeliveryPhase(s.(lastPlayerCorrect := playerCorrect, lastComputerCorrect := computerCorrect),
                         playerCorrect, computerCorrect)
  }

  /** The delivery phase applies the delivery rule to the two correctness flags. */
  function StartDeliveryPhase(s: GameState, playerCorrect: bool, computerCorrect: bool): (t: GameState)
    ensures t.phase == DeliveryPhase
    ensures t.availableNumbers == Config.ScoringOptions || t.availableNumbers == Config.RestrictedOptions
    ensures t.availableNumbers == Config.ScoringOptions <==>
      Delivery.BattingCorrect(s.playerBatting, playerCorrect, computerCorrect)
    ensures t.isNoBall <==>
      && Delivery.BattingCorrect(s.playerBatting, playerCorrect, computerCorrect)
      && !Delivery.BowlingCorrect(s.playerBatting, playerCorrect, computerCorrect)
    ensures t.(phase := s.phase, availableNumbers := s.availableNumbers, isNoBall := s.isNoBall) == s
  {
    var c := Delivery.DeliveryRule(s.playerBatting, playerCorrect, computerCorrect);
    s.(phase := DeliveryPhase, availableNumbers := c.available, isNoBall := c.isNoBall)
  }

  /**
   * Picking a number: ignored while a ball is being processed; otherwise the
   * computer picks its number (batting when the player bowls) and the ball
   * is resolved.
   */
  function SelectNumber(s: GameState, num: int, u: Ai.Draw): (t: GameState)
    requires num in s.availableNumbers
    requires !s.isProcessing ==> s.difficulty.Some? && s.difficulty.value in Config.AiStrategies
    ensures s.isProcessing ==> t == s
    ensures !s.isProcessing ==>
      && t.isProcessing
      && t.phase == ResultPhase
      && t.playerNumber == Some(num)
      && t.computerNumber.Some? && t.computerNumber.value in Config.ScoringOptions
      && t.ballCount == s.ballCount + 1
    ensures !s.isProcessing ==>
      t.computerNumber == Some(Ai.GetComputerNumber(s.difficulty.value, !s.playerBatting, s.availableNumbers, u))
    ensures !s.isProcessing ==>
      t.(isProcessing := s.isProcessing, phase := s.phase,
         playerNumber := s.playerNumber, computerNumber := s.computerNumber,
         runs := s.runs, wickets := s.wickets, ballHistory := s.ballHistory,
         worm1 := s.worm1, worm2 := s.worm2, ballCount := s.ballCount,
         currentOver := s.currentOver, ballsInOver := s.ballsInOver) == s
  {
    if s.isProcessing then s
    else
      var computer := Ai.GetComputerNumber(s.difficulty.value, !s.playerBatting, s.availableNumbers, u);
      ShowResult(s.(isProcessing := true, playerNumber := Some(num), computerNumber := Some(computer)))
  }

  /** The batting side's number of the ball. */
  function BattingNumber(s: GameState): int
    requires s.playerNumber.Some? && s.computerNumber.Some?
  {
    if s.playerBatting then s.playerNumber.value else s.computerNumber.value
  }

  /** The bowling side's number of the ball. */
  function BowlingNumber(s: GameState): int
    requires s.playerNumber.Some? && s.computerNumber.Some?
  {
    if s.playerBatting then s.computerNumber.value else s.playerNumber.value
  }

  /** Whether the ball takes a wicket: equal numbers on a ball that is not a no-ball. */
  predicate IsWicketBall(s: GameState)
    requires s.playerNumber.Some? && s.computerNumber.Some?
  {
    s.playerNumber == s.computerNumber && !s.isNoBall
  }

  /** The worm point of the ball: its position in the innings, the new total, wicket and six flags. */
  function PointFor(s: GameState, newRuns: int): WormPoint
    requires s.playerNumber.Some? && s.computerNumber.Some?
  {
    WormPoint(s.ballCount + 1, newRuns, IsWicketBall(s), BattingNumber(s) == 6 && BattingNumber(s) != BowlingNumber(s))
  }

  /**
   * Scoring the ball: apply the outcome to runs and wickets, append one
   * history record and one worm point to the innings in play.
   */
  function RecordBall(s: GameState): (t: GameState)
    requires s.playerNumber.Some? && s.computerNumber.Some?
    ensures t.wickets == (if IsWicketBall(s) then s.wickets + 1 else s.wickets)
    ensures IsWicketBall(s) ==> t.runs == Ball.Max(0, s.runs - Config.WicketPenalty)
    ensures !IsWicketBall(s) && BattingNumber(s) == BowlingNumber(s) ==> t.runs == s.runs
    ensures BattingNumber(s) != BowlingNumber(s) ==> t.runs == s.runs + BattingNumber(s)
    ensures t.ballHistory
      == s.ballHistory + [BallRecord(s.lastPlayerCorrect, s.lastComputerCorrect, BattingNumber(s), IsWicketBall(s))]
    ensures CurrentWorm(t) == CurrentWorm(s) + [PointFor(s, t.runs)]
    ensures s.currentInnings == 1 ==> t.worm2 == s.worm2
    ensures s.currentInnings != 1 ==> t.worm1 == s.worm1
    ensures s.runs >= 0 && BattingNumber(s) >= 0 ==> 0 <= t.runs <= s.runs + BattingNumber(s)
    ensures BattingNumber(s) >= 0 && !IsWicketBall(s) ==> t.runs >= s.runs
    ensures t.(runs := s.runs, wickets := s.wickets, ballHistory := s.ballHistory,
               worm1 := s.worm1, worm2 := s.worm2) == s
  {
    var o := Ball.Resolve(BattingNumber(s), BowlingNumber(s), s.isNoBall, s.runs);
    var record := BallRecord(s.lastPlayerCorrect, s.lastComputerCorrect, BattingNumber(s), o.isWicket);
    var point := WormPoint(s.ballCount + 1, o.newRuns, o.isWicket, o.runsScored == 6);
    s.(wickets := if o.isWicket then s.wickets + 1 else s.wickets,
       runs := o.newRuns,
       ballHistory := s.ballHistory + [record],
       worm1 := if s.currentInnings == 1 then s.worm1 + [point] else s.worm1,
       worm2 := if s.currentInnings == 1 then s.worm2 else s.worm2 + [point])
  }

  /** Counting the ball: one more ball, rolling over into a new over after six. */
  function AdvanceClock(s: GameState): (t: GameState)
    ensures t.ballCount == s.ballCount + 1
    ensures OverClock(s) ==> OverClock(t)
    ensures t.(ballCount := s.ballCount, currentOver := s.currentOver, ballsInOver := s.ballsInOver) == s
  {
    var inOver := s.ballsInOver + 1;
    if inOver == Config.BallsPerOver then
      s.(ballCount := s.ballCount + 1, ballsInOver := 0, currentOver := s.currentOver + 1)
    else
      s.(ballCount := s.ballCount + 1, ballsInOver := inOver)
  }

  /** Resolving the ball: score and record it, then count it. */
  function ShowResult(s: GameState): GameState
    requires s.playerNumber.Some? && s.computerNumber.Some?
  {
    AdvanceClock(RecordBall(s.(phase := ResultPhase)))
  }

  // ---------------------------------------------------------------------------
  // Innings control
  // ---------------------------------------------------------------------------

  /** The runs the side batting second must reach to win. */
  function Target(s: GameState): int {
    s.firstInningsScore.runs + 1
  }

  /**
   * The next-ball button: the innings ends when its balls are used up or,
   * in the second innings, the target is reached; its score is then frozen.
   * Otherwise the next question is asked.
   */
  function NextBall(s: GameState, d: QuestionDraws): (t: GameState)
    requires DrawsFit(d, s.usedQuestions)
    ensures !t.isProcessing
    ensures t.phase.InningsBreak? <==>
      s.ballCount >= s.totalBalls || (s.currentInnings == 2 && s.runs >= Target(s))
    ensures !t.phase.InningsBreak? ==> t.phase == QuestionPhase && AsksDrawn(s.usedQuestions, d, t)
  {
    var s1 := s.(isProcessing := false);
    if s1.ballCount >= s1.totalBalls || (s1.currentInnings == 2 && s1.runs >= Target(s1)) then
      EndInnings(s1)
    else
      StartQuestionPhase(s1, d)
  }

  /**
   * The next ball touches only the phase, the processing flag, the scores
   * and the question slots; at an innings break the question slots and the
   * used list are kept as they were.
   */
  lemma NextBallKeepsRest(s: GameState, d: QuestionDraws)
    requires DrawsFit(d, s.usedQuestions)
    ensures var t := NextBall(s, d);
      t.phase.InningsBreak? ==> t.usedQuestions == s.usedQuestions && t.currentQuestion == s.currentQuestion
    ensures var t := NextBall(s, d);
      t.(phase := s.phase, isProcessing := s.isProcessing,
         firstInningsScore := s.firstInningsScore, secondInningsScore := s.secondInningsScore,
         currentQuestion := s.currentQuestion, usedQuestions := s.usedQuestions,
         playerAnswer := s.playerAnswer, computerAnswer := s.computerAnswer) == s
  {
    var s1 := s.(isProcessing := false);
    if s1.ballCount >= s1.totalBalls || (s1.currentInnings == 2 && s1.runs >= Target(s1)) {
      assert NextBall(s, d) == EndInnings(s1);
    } else {
      assert NextBall(s, d) == StartQuestionPhase(s1, d);
    }
  }

  /**
   * When the innings ends, the side that batted has its runs and wickets
   * frozen into its score and the other score is untouched; the break is the
   * match's end exactly after the second innings. While play goes on,
   * neither score changes.
   */
  lemma NextBallFreezesScore(s: GameState, d: QuestionDraws)
    requires DrawsFit(d, s.usedQuestions)
    ensures var t := NextBall(s, d);
      && (t.phase.InningsBreak? ==> (t.phase.matchComplete <==> s.currentInnings != 1))
      && (t.phase == InningsBreak(false) ==>
            t.firstInningsScore == Score(s.runs, s.wickets) && t.secondInningsScore == s.secondInningsScore)
      && (t.phase == InningsBreak(true) ==>
            t.secondInningsScore == Score(s.runs, s.wickets) && t.firstInningsScore == s.firstInningsScore)
      && (!t.phase.InningsBreak? ==>
            t.firstInningsScore == s.firstInningsScore && t.secondInningsScore == s.secondInningsScore)
  {
  }

  /** Freezing the innings in play into its score and going to the innings break. */
  function EndInnings(s: GameState): (t: GameState)
    ensures t.phase == InningsBreak(s.currentInnings != 1)
    ensures s.currentInnings == 1 ==>
      t.firstInningsScore == Score(s.runs, s.wickets) && t.secondInningsScore == s.secondInningsScore
    ensures s.currentInnings != 1 ==>
      t.secondInningsScore == Score(s.runs, s.wickets) && t.firstInningsScore == s.firstInningsScore
    ensures t.(phase := s.phase, firstInningsScore := s.firstInningsScore,
               secondInningsScore := s.secondInningsScore) == s
  {
    if s.currentInnings == 1 then
      s.(firstInningsScore := Score(s.runs, s.wickets), phase := InningsBreak(false))
    else
      s.(secondInningsScore := Score(s.runs, s.wickets), phase := InningsBreak(true))
  }

  /**
   * The continue button of the innings break: after the second innings it
   * shows the summary; after the first it resets the per-innings state, hands
   * the bat to the computer and asks the first question of innings two.
   */
  function ContinueFromInningsBreak(s: GameState, d: QuestionDraws): (t: GameState)
    requires s.phase.InningsBreak?
    requires !s.phase.matchComplete ==> DrawsFit(d, s.usedQuestions)
    ensures s.phase.matchComplete ==> t.phase == Summary && t.(phase := s.phase) == s
    ensures !s.phase.matchComplete ==>
      && t.phase == QuestionPhase
      && AsksDrawn(s.usedQuestions, d, t)
      && t.currentInnings == 2 && !t.playerBatting
      && t.ballCount == 0 && t.runs == 0 && t.wickets == 0
      && t.currentOver == 0 && t.ballsInOver == 0
      && t.ballHistory == []
      && t.availableNumbers == Config.ScoringOptions
      && t.firstInningsScore == s.firstInningsScore
      && t.worm1 == s.worm1 && t.worm2 == s.worm2
      && t.totalBalls == s.totalBalls && t.difficulty == s.difficulty
  {
    if s.phase.matchComplete then
      ShowSummary(s)
    else
      StartQuestionPhase(
        s.(currentInnings := 2, playerBatting := false,
           ballCount := 0, runs := 0, wickets := 0,
           currentOver := 0, ballsInOver := 0,
           ballHistory := [],
           availableNumbers := Config.ScoringOptions),
        d)
  }

  /** The summary screen only changes the phase; the result is read off the frozen scores. */
  function ShowSummary(s: GameState): (t: GameState)
    ensures t.phase == Summary
    ensures t.(phase := s.phase) == s
  {
    s.(phase := Summary)
  }

  /** The final result: the player's team batted first, the computer's second. */
  function FinalResult(s: GameState): MatchResult.Verdict {
    MatchResult.Decide(s.firstInningsScore.runs, s.secondInningsScore.runs)
  }

  /** Restarting discards the match and returns to a fresh state. */
  function Restart(): GameState {
    Initial()
  }
}

=== FILE: invariants.dfy ===
/**
 * The match-state invariant and its preservation by every event the screens
 * can deliver. The engine's functions check only two guards themselves (a
 * missing answer, a ball already being processed); which event can arrive in
 * which phase is fixed by the buttons each screen shows, and appears here as
 * the phase each preservation lemma assumes.
 */
module GameInvariants {
  import opened Slots
  import Config
  import Questions
  import QuestionPool
  import Ai
  import MatchResult
  import Ball
  import opened Game

  /** Each point of a progression sits at its own ball number and never below zero runs. */
  ghost predicate WormWellFormed(w: seq<WormPoint>) {
    forall i :: 0 <= i < |w| ==> w[i].ball == i + 1 && w[i].runs >= 0
  }

  /** The permitted set is the full set or exactly [0, 1]; a no-ball comes with the full set. */
  predicate PermittedOk(s: GameState) {
    && (s.availableNumbers == Config.ScoringOptions || s.availableNumbers == Config.RestrictedOptions)
    && (s.isNoBall ==> s.availableNumbers == Config.ScoringOptions)
  }

  /** Innings number and batting side agree: the player bats in innings 1 and bowls in innings 2. */
  ghost predicate RolesOk(s: GameState) {
    && (s.currentInnings == 1 || s.currentInnings == 2)
    && (s.playerBatting <==> s.currentInnings == 1)
  }

  /** The ball count stays within the innings and agrees with the over counters, history and progression. */
  ghost predicate ClockOk(s: GameState) {
    && s.overs >= 1
    && s.totalBalls == s.overs * Config.BallsPerOver
    && 0 <= s.ballCount <= s.totalBalls
    && OverClock(s)
    && 0 <= s.wickets <= s.ballCount
    && |s.ballHistory| == s.ballCount
    && |CurrentWorm(s)| == s.ballCount
    && (s.currentInnings == 1 ==> s.worm2 == [])
  }

  /**
   * Runs are never negative; the side batting second never passes the
   * first innings by more than one six.
   */
  ghost predicate ScoresOk(s: GameState) {
    && s.runs >= 0
    && WormWellFormed(s.worm1)
    && WormWellFormed(s.worm2)
    && s.firstInningsScore.runs >= 0
    && s.secondInningsScore.runs >= 0
    && (s.currentInnings == 2 ==> s.runs <= s.firstInningsScore.runs + 6)
  }

  /** The used-question list is duplicate-free within the pool, and the current question is a pool index. */
  ghost predicate PoolOk(s: GameState) {
    && QuestionPool.UsedOk(s.usedQuestions, Questions.PoolSize)
    && (s.currentQuestion.Some? ==> s.currentQuestion.value < Questions.PoolSize)
  }

  /** What each phase guarantees about the rest of the state. */
  ghost predicate PhaseOk(s: GameState) {
    && (s.phase == Welcome ==> s.ballCount == 0 && s.currentInnings == 1 && !s.isProcessing)
    && (s.phase != Welcome ==> s.difficulty.Some? && s.difficulty.value in Config.AiStrategies)
    && (s.phase == QuestionPhase || s.phase == DeliveryPhase ==>
          && s.currentQuestion.Some?
          && !s.isProcessing
          && s.ballCount < s.totalBalls
          && (s.currentInnings == 2 ==> s.runs < Target(s)))
    && (s.phase == ResultPhase ==> s.isProcessing)
    && (s.phase.InningsBreak? ==> !s.isProcessing && (s.phase.matchComplete <==> s.currentInnings == 2))
    && (s.phase == InningsBreak(false) ==> s.firstInningsScore == Score(s.runs, s.wickets))
    && (s.phase == InningsBreak(true) || s.phase == Summary ==>
          s.currentInnings == 2 && s.secondInningsScore == Score(s.runs, s.wickets))
  }

  /** The invariant of every reachable match state. */
  ghost predicate Valid(s: GameState) {
    && RolesOk(s)
    && ClockOk(s)
    && ScoresOk(s)
    && PermittedOk(s)
    && PoolOk(s)
    && PhaseOk(s)
  }

  lemma InitialValid()
    ensures Valid(Initial())
    ensures Initial().phase == Welcome && Initial().totalBalls == 18
  {
  }

  lemma SelectCountryValid(s: GameState, teamKey: string)
    requires Valid(s)
    requires teamKey in Config.Teams
    ensures Valid(SelectCountry(s, teamKey))
  {
  }

  /** Picking an available team pairs it with an available opponent that names it back. */
  lemma SelectCountryPairsOpponent(s: GameState, teamKey: string)
    requires teamKey in Config.Teams && Config.Teams[teamKey].available
    ensures var t := SelectCountry(s, teamKey);
      && t.opponentTeam.Some?
      && t.opponentTeam.value in Config.Teams
      && t.opponentTeam.value != teamKey
      && Config.Teams[t.opponentTeam.value].available
      && Config.Teams[t.opponentTeam.value].opponent == teamKey
  {
    Config.AvailableOpponentsPaired();
  }

  lemma SelectDifficultyValid(s: GameState, difficulty: string)
    requires Valid(s)
    requires difficulty in Config.DifficultyNames
    requires s.playerTeam.Some? && s.playerTeam.value in Config.Teams
    requires s.opponentTeam.Some? && s.opponentTeam.value in Config.Teams
    ensures Valid(SelectDifficulty(s, difficulty))
  {
  }

  lemma StartMatchValid(s: GameState, overs: int, d: QuestionDraws)
    requires Valid(s) && s.phase == Welcome
    requires s.difficulty.Some? && s.difficulty.value in Config.AiStrategies
    requires overs >= 1
    requires DrawsFit(d, s.usedQuestions)
    ensures Valid(StartMatch(s, overs, d))
    ensures StartMatch(s, overs, d).totalBalls == overs * Config.BallsPerOver
  {
  }

  lemma SelectOptionValid(s: GameState, index: int)
    requires Valid(s)
    ensures Valid(SelectOption(s, index))
  {
  }

  lemma SubmitAnswerValid(s: GameState)
    requires Valid(s) && s.phase == QuestionPhase
    ensures Valid(SubmitAnswer(s))
  {
  }

  lemma SelectNumberValid(s: GameState, num: int, u: Ai.Draw)
    requires Valid(s)
    requires s.phase == DeliveryPhase || s.phase == ResultPhase
    requires num in s.availableNumbers
    ensures Valid(SelectNumber(s, num, u))
  {
    if !s.isProcessing {
      var cn := Ai.GetComputerNumber(s.difficulty.value, !s.playerBatting, s.availableNumbers, u);
      var s1 := s.(isProcessing := true, playerNumber := Some(num), computerNumber := Some(cn), phase := ResultPhase);
      PickedBallValid(s, num, cn);
      ResolvedBallValid(s1);
      assert AdvanceClock(RecordBall(s1)) == SelectNumber(s, num, u);
    }
  }

  /** Fixing both numbers of a delivery keeps the invariant, with a batting number between 0 and 6. */
  lemma PickedBallValid(s: GameState, num: int, cn: int)
    requires Valid(s) && s.phase == DeliveryPhase
    requires num in s.availableNumbers && cn in Config.ScoringOptions
    ensures var s1 := s.(isProcessing := true, playerNumber := Some(num), computerNumber := Some(cn), phase := ResultPhase);
      Valid(s1) && 0 <= BattingNumber(s1) <= 6
  {
    var s1 := s.(isProcessing := true, playerNumber := Some(num), computerNumber := Some(cn), phase := ResultPhase);
    assert 0 <= BattingNumber(s1) <= 6 by {
      Config.ScoringOptionsDistinct();
      assert num in Config.ScoringOptions;
    }
    assert RolesOk(s1) && ClockOk(s1) && ScoresOk(s1);
    assert PermittedOk(s1) && PoolOk(s1);
    assert PhaseOk(s1);
  }

  /** Resolving a ball that the innings still had room for keeps the invariant. */
  lemma ResolvedBallValid(s: GameState)
    requires Valid(s) && s.phase == ResultPhase
    requires s.playerNumber.Some? && s.computerNumber.Some?
    requires s.ballCount < s.totalBalls
    requires s.currentInnings == 2 ==> s.runs < Target(s)
    requires 0 <= BattingNumber(s) <= 6
    ensures Valid(AdvanceClock(RecordBall(s)))
  {
    var r := RecordBall(s);
    AppendKeepsWorm(CurrentWorm(s), PointFor(s, r.runs));
    assert ScoresOk(r);
    var t := AdvanceClock(r);
    assert ClockOk(t);
    assert ScoresOk(t);
  }

  lemma AppendKeepsWorm(w: seq<WormPoint>, p: WormPoint)
    requires WormWellFormed(w)
    requires p.ball == |w| + 1 && p.runs >= 0
    ensures WormWellFormed(w + [p])
  {
  }

  lemma NextBallValid(s: GameState, d: QuestionDraws)
    requires Valid(s) && s.phase == ResultPhase
    requires DrawsFit(d, s.usedQuestions)
    ensures Valid(NextBall(s, d))
  {
    var r := s.(isProcessing := false);
    if r.ballCount >= r.totalBalls || (r.currentInnings == 2 && r.runs >= Target(r)) {
      assert NextBall(s, d) == EndInnings(r);
      EndInningsValid(s);
    } else {
      assert NextBall(s, d) == StartQuestionPhase(r, d);
      AskNextValid(s, d);
    }
  }

  /** Closing an innings whose balls are used, or whose chase is won, keeps the invariant. */
  lemma EndInningsValid(s: GameState)
    requires Valid(s) && s.phase == ResultPhase
    requires s.ballCount >= s.totalBalls || (s.currentInnings == 2 && s.runs >= Target(s))
    ensures Valid(EndInnings(s.(isProcessing := false)))
  {
    var t := EndInnings(s.(isProcessing := false));
    assert RolesOk(t) && ClockOk(t) && ScoresOk(t);
    assert PermittedOk(t) && PoolOk(t);
    assert PhaseOk(t);
  }

  /** Asking the next question of an innings still in play keeps the invariant. */
  lemma AskNextValid(s: GameState, d: QuestionDraws)
    requires Valid(s) && s.phase == ResultPhase
    requires DrawsFit(d, s.usedQuestions)
    requires !(s.ballCount >= s.totalBalls || (s.currentInnings == 2 && s.runs >= Target(s)))
    ensures Valid(StartQuestionPhase(s.(isProcessing := false), d))
  {
    var t := StartQuestionPhase(s.(isProcessing := false), d);
    assert RolesOk(t) && ClockOk(t) && ScoresOk(t);
    assert PermittedOk(t) && PoolOk(t);
    assert PhaseOk(t);
  }

  lemma ContinueValid(s: GameState, d: QuestionDraws)
    requires Valid(s) && s.phase.InningsBreak?
    requires !s.phase.matchComplete ==> DrawsFit(d, s.usedQuestions)
    ensures Valid(ContinueFromInningsBreak(s, d))
  {
    if !s.phase.matchComplete {
      var r := s.(currentInnings := 2, playerBatting := false,
                  ballCount := 0, runs := 0, wickets := 0,
                  currentOver := 0, ballsInOver := 0,
                  ballHistory := [],
                  availableNumbers := Config.ScoringOptions);
      var t := StartQuestionPhase(r, d);
      assert t == ContinueFromInningsBreak(s, d);
      assert RolesOk(t) && ClockOk(t) && ScoresOk(t);
      assert PermittedOk(t) && PoolOk(t);
      assert PhaseOk(t);
    }
  }

  /** A second number pick before the next ball changes nothing. */
  lemma SelectNumberIgnoresRepeat(s: GameState, num: int, u: Ai.Draw, again: int, u2: Ai.Draw)
    requires Valid(s) && s.phase == DeliveryPhase
    requires num in s.availableNumbers
    ensures again in s.availableNumbers ==>
      SelectNumber(SelectNumber(s, num, u), again, u2) == SelectNumber(s, num, u)
  {
    var t := SelectNumber(s, num, u);
    assert t.isProcessing;
    assert t.availableNumbers == s.availableNumbers;
  }

  /** The computer's pick lies in the permitted set of the delivery. */
  lemma ComputerPickPermitted(s: GameState, num: int, u: Ai.Draw)
    requires Valid(s) && s.phase == DeliveryPhase
    requires num in s.availableNumbers
    ensures SelectNumber(s, num, u).computerNumber.Some?
    ensures SelectNumber(s, num, u).computerNumber.value in s.availableNumbers
  {
    Ai.ComputerNumberIsPermitted(s.difficulty.value, !s.playerBatting, s.availableNumbers, u);
  }

  /**
   * One delivered ball: equal numbers take a wicket and the penalty (floored
   * at zero) unless it is a no-ball, in which case nothing changes; different
   * numbers add the batting side's number. Exactly one history record and
   * one progression point are appended, and one ball is counted.
   */
  lemma SelectNumberResolvesOneBall(s: GameState, num: int, u: Ai.Draw)
    requires Valid(s) && s.phase == DeliveryPhase
    requires num in s.availableNumbers
    ensures var t := SelectNumber(s, num, u);
      var computer := t.computerNumber.value;
      var batting := if s.playerBatting then num else computer;
      var wicket := num == computer && !s.isNoBall;
      && t.ballCount == s.ballCount + 1
      && (wicket ==> t.wickets == s.wickets + 1 && t.runs == Ball.Max(0, s.runs - Config.WicketPenalty))
      && (num == computer && s.isNoBall ==> t.wickets == s.wickets && t.runs == s.runs)
      && (num != computer ==> t.wickets == s.wickets && t.runs == s.runs + batting)
      && t.ballHistory == s.ballHistory + [BallRecord(s.lastPlayerCorrect, s.lastComputerCorrect, batting, wicket)]
      && CurrentWorm(t) == CurrentWorm(s) + [WormPoint(s.ballCount + 1, t.runs, wicket, batting == 6 && num != computer)]
  {
    var t := SelectNumber(s, num, u);
    var s1 := s.(isProcessing := true, playerNumber := Some(num), computerNumber := t.computerNumber, phase := ResultPhase);
    var r := RecordBall(s1);
    assert t == AdvanceClock(r);
    assert t.runs == r.runs && t.wickets == r.wickets;
    assert t.ballHistory == r.ballHistory && CurrentWorm(t) == CurrentWorm(r);
    var computer := t.computerNumber.value;
    var batting := if s.playerBatting then num else computer;
    var wicket := num == computer && !s.isNoBall;
    assert BattingNumber(s1) == batting && IsWicketBall(s1) == wicket;
    assert (BattingNumber(s1) == BowlingNumber(s1)) == (num == computer);
    assert CurrentWorm(s1) == CurrentWorm(s) && s1.ballCount == s.ballCount;
    assert PointFor(s1, r.runs) == WormPoint(s.ballCount + 1, t.runs, wicket, batting == 6 && num != computer);
  }

  /**
   * The second innings is cut short once the target is reached: the next
   * ball ends the match and freezes the second score.
   */
  lemma SecondInningsStopsAtTarget(s: GameState, d: QuestionDraws)
    requires Valid(s) && s.phase == ResultPhase
    requires DrawsFit(d, s.usedQuestions)
    requires s.currentInnings == 2 && s.runs >= Target(s)
    ensures NextBall(s, d).phase == InningsBreak(true)
    ensures NextBall(s, d).secondInningsScore == Score(s.runs, s.wickets)
  {
    NextBallFreezesScore(s, d);
  }

  /**
   * At the summary the result compares the two frozen scores; since the
   * chase stops at the target, a computer win is by at most six runs.
   */
  lemma SummaryResult(s: GameState)
    requires Valid(s) && s.phase == Summary
    ensures FinalResult(s).Win? <==> s.firstInningsScore.runs > s.secondInningsScore.runs
    ensures FinalResult(s).Lose? <==> s.secondInningsScore.runs > s.firstInningsScore.runs
    ensures FinalResult(s).Lose? ==> 0 < FinalResult(s).margin <= 6
    ensures FinalResult(s).Win? ==> FinalResult(s).margin > 0
  {
  }

  /**
   * A one-over chase: 11 runs to beat, the computer reaches 12 on the fourth
   * of six balls. The innings ends there, and the player's team loses by one.
   */
  lemma ChaseEndsEarly(s: GameState, d: QuestionDraws)
    requires Valid(s) && s.phase == ResultPhase
    requires DrawsFit(d, s.usedQuestions)
    requires s.currentInnings == 2 && s.totalBalls == 6 && s.ballCount == 4
    requires s.firstInningsScore.runs == 11 && s.runs == 12
    ensures NextBall(s, d).phase == InningsBreak(true)
    ensures FinalResult(ContinueFromInningsBreak(NextBall(s, d), d)) == MatchResult.Lose(1)
  {
    NextBallFreezesScore(s, d);
  }
}

=== FILE: match_result.dfy ===
/** The final result of a match from the two innings' runs. */
module MatchResult {

  /** The player's team wins, loses or ties; a decided result carries its run margin. */
  datatype Verdict = Win(margin: int) | Lose(margin: int) | Tie

  function Abs(x: int): int {
    if x < 0 then -x else x
  }

  /** The player's team bats first, so `playerRuns` is innings 1 and `computerRuns` innings 2. */
  function Decide(playerRuns: int, computerRuns: int): (v: Verdict)
    ensures v.Win? <==> playerRuns > computerRuns
    ensures v.Lose? <==> computerRuns > playerRuns
    ensures v.Tie? <==> playerRuns == computerRuns
    ensures !v.Tie? ==> v.margin > 0 && v.margin == Abs(playerRuns - computerRuns)
  {
    if playerRuns > computerRuns then Win(playerRuns - computerRuns)
    else if computerRuns > playerRuns then Lose(computerRuns - playerRuns)
    else Tie
  }

  /** Swapping the two scores swaps a win for a loss with the same margin. */
  lemma DecideMirror(playerRuns: int, computerRuns: int)
    ensures Decide(playerRuns, computerRuns).Win? <==> Decide(computerRuns, playerRuns).Lose?
    ensures Decide(playerRuns, computerRuns).Tie? <==> Decide(computerRuns, playerRuns).Tie?
    ensures !Decide(playerRuns, computerRuns).Tie? ==>
      Decide(playerRuns, computerRuns).margin == Decide(computerRuns, playerRuns).margin
  {
  }

  /** Worked results: 11 against 12 loses by one; 40 against 40 ties. */
  lemma SampleResults()
    ensures Decide(11, 12) == Lose(1)
    ensures Decide(40, 40) == Tie
  {
  }
}

=== FILE: question_pool.dfy ===
/**
 * Drawing questions without repeats: a list of used indices is kept, a draw
 * picks uniformly among the unused ones, and once every index has been used
 * the list is emptied before the draw.
 */
module QuestionPool {
  import Questions

  /** The indices below `n` that `used` does not contain, in increasing order. */
  function Unused(used: seq<nat>, n: nat): (c: seq<nat>)
    ensures forall x: nat :: x in c <==> x < n && x !in used
    ensures |c| <= n
  {
    if n == 0 then []
    else Unused(used, n - 1) + (if n - 1 in used then [] else [n - 1])
  }

  /** Nothing is left unused exactly when every index has been used. */
  lemma UnusedEmptyIffExhausted(used: seq<nat>, n: nat)
    ensures |Unused(used, n)| == 0 <==> Exhausted(used, n)
  {
    var c := Unused(used, n);
    if |c| > 0 {
      assert c[0] in c;
    }
  }

  /** Every index below `n` has been used. */
  ghost predicate Exhausted(used: seq<nat>, n: nat) {
    forall i: nat :: i < n ==> i in used
  }

  /** The used list a draw starts from: emptied when nothing is left unused. */
  function Refilled(used: seq<nat>, n: nat): seq<nat> {
    if |Unused(used, n)| == 0 then [] else used
  }

  /** The indices the draw chooses among. */
  function Candidates(used: seq<nat>, n: nat): seq<nat> {
    Unused(Refilled(used, n), n)
  }

  /** A drawn index together with the used list after the draw. */
  datatype Drawn = Drawn(index: nat, used: seq<nat>)

  /** One draw, with `pick` the uniformly chosen position among the candidates. */
  function NextQuestion(used: seq<nat>, n: nat, pick: nat): (d: Drawn)
    requires pick < |Candidates(used, n)|
    ensures d.index < n
    ensures d.index in d.used
    ensures Exhausted(used, n) ==> d.used == [d.index]
    ensures !Exhausted(used, n) ==> d.index !in used && d.used == used + [d.index]
  {
    UnusedEmptyIffExhausted(used, n);
    var base := Refilled(used, n);
    var c := Unused(base, n);
    assert c[pick] in c;
    Drawn(c[pick], base + [c[pick]])
  }

  predicate Distinct(s: seq<nat>) {
    forall i, j :: 0 <= i < j < |s| ==> s[i] != s[j]
  }

  /** The used list holds distinct indices of the pool. */
  predicate UsedOk(used: seq<nat>, n: nat) {
    && Distinct(used)
    && forall i :: 0 <= i < |used| ==> used[i] < n
  }

  ghost function Elems(s: seq<nat>): set<nat> {
    set x | x in s
  }

  ghost function Below(n: nat): (b: set<nat>)
    ensures forall x: nat :: x in b <==> x < n
    ensures |b| == n
  {
    if n == 0 then {} else Below(n - 1) + {n - 1}
  }

  lemma {:induction false} DistinctElemsSize(s: seq<nat>)
    requires Distinct(s)
    ensures |Elems(s)| == |s|
  {
    if |s| > 0 {
      var init := s[..|s| - 1];
      assert Distinct(init);
      DistinctElemsSize(init);
      assert Elems(s) == Elems(init) + {s[|s| - 1]};
      assert s[|s| - 1] !in Elems(init);
    }
  }

  lemma SubsetSize(a: set<nat>, b: set<nat>)
    requires a <= b
    ensures |a| <= |b|
  {
    assert b == a + (b - a);
  }

  /** A well-formed used list never outgrows the pool, and fills it exactly when exhausted. */
  lemma UsedBound(used: seq<nat>, n: nat)
    requires UsedOk(used, n)
    ensures |used| <= n
    ensures Exhausted(used, n) <==> |used| == n
  {
    DistinctElemsSize(used);
    var e, b := Elems(used), Below(n);
    assert e <= b by {
      forall x | x in e ensures x in b {
        var i :| 0 <= i < |used| && used[i] == x;
      }
    }
    SubsetSize(e, b);
    if Exhausted(used, n) {
      assert b <= e;
      SubsetSize(b, e);
    } else {
      var x: nat :| x < n && x !in used;
      assert e <= b - {x};
      SubsetSize(e, b - {x});
      assert b == (b - {x}) + {x};
    }
  }

  /** No draw is left unserved: the candidates are never empty for a non-empty pool. */
  lemma CandidatesNonEmpty(used: seq<nat>, n: nat)
    requires n > 0
    ensures |Candidates(used, n)| > 0
  {
    if |Unused(used, n)| == 0 {
      assert 0 in Unused([], n);
    }
  }

  /** A draw keeps the used list duplicate-free and within the pool. */
  lemma NextQuestionKeepsUsedOk(used: seq<nat>, n: nat, pick: nat)
    requires pick < |Candidates(used, n)|
    ensures UsedOk(used, n) ==> UsedOk(NextQuestion(used, n, pick).used, n)
    ensures UsedOk(used, n) ==> |NextQuestion(used, n, pick).used| <= n
  {
    if UsedOk(used, n) {
      NextQuestionKeepsUsedOkStep(used, n, pick);
    }
  }

  lemma NextQuestionKeepsUsedOkStep(used: seq<nat>, n: nat, pick: nat)
    requires UsedOk(used, n)
    requires pick < |Candidates(used, n)|
    ensures UsedOk(NextQuestion(used, n, pick).used, n)
    ensures |NextQuestion(used, n, pick).used| <= n
  {
    var d := NextQuestion(used, n, pick);
    if Exhausted(used, n) {
      assert d.used == [d.index];
      assert UsedOk(d.used, n);
    } else {
      DistinctSnoc(used, d.index);
      assert d.used == used + [d.index];
      forall i | 0 <= i < |d.used|
        ensures d.used[i] < n
      {
        if i < |used| {
          assert d.used[i] == used[i];
        }
      }
      assert UsedOk(d.used, n);
    }
    UsedBound(d.used, n);
  }

  /** Whether a list of picks is valid for a run of consecutive draws. */
  predicate ValidPicks(used: seq<nat>, n: nat, picks: seq<nat>)
    decreases |picks|
  {
    || |picks| == 0
    || (&& picks[0] < |Candidates(used, n)|
        && ValidPicks(NextQuestion(used, n, picks[0]).used, n, picks[1..]))
  }

  /** The indices returned by consecutive draws. */
  function DrawMany(used: seq<nat>, n: nat, picks: seq<nat>): (drawn: seq<nat>)
    requires ValidPicks(used, n, picks)
    ensures |drawn| == |picks|
    decreases |picks|
  {
    if |picks| == 0 then []
    else
      assert picks[0] < |Candidates(used, n)|;
      var d := NextQuestion(used, n, picks[0]);
      assert ValidPicks(d.used, n, picks[1..]);
      [d.index] + DrawMany(d.used, n, picks[1..])
  }

  lemma DistinctSnoc(s: seq<nat>, x: nat)
    requires Distinct(s) && x !in s
    ensures Distinct(s + [x])
  {
    var t := s + [x];
    forall i, j | 0 <= i < j < |t|
      ensures t[i] != t[j]
    {
      assert t[i] == s[i];
      if j == |s| {
        assert t[i] in s;
      } else {
        assert t[j] == s[j];
      }
    }
  }

  lemma DistinctCons(x: nat, s: seq<nat>)
    requires Distinct(s) && x !in s
    ensures Distinct([x] + s)
  {
    var t := [x] + s;
    forall i, j | 0 <= i < j < |t|
      ensures t[i] != t[j]
    {
      if i > 0 {
        assert t[i] == s[i - 1] && t[j] == s[j - 1];
      } else {
        assert t[j] == s[j - 1] && t[j] in s;
      }
    }
  }

  /** While the pool has not run out, draws never repeat each other or an earlier index. */
  lemma {:induction false} DrawsDistinctWithinCycle(used: seq<nat>, n: nat, picks: seq<nat>)
    requires UsedOk(used, n)
    requires ValidPicks(used, n, picks)
    requires |used| + |picks| <= n
    ensures Distinct(DrawMany(used, n, picks))
    ensures forall x :: x in DrawMany(used, n, picks) ==> x !in used
    decreases |picks|
  {
    if |picks| > 0 {
      assert picks[0] < |Candidates(used, n)|;
      var d := NextQuestion(used, n, picks[0]);
      assert ValidPicks(d.used, n, picks[1..]);
      UsedBound(used, n);
      assert d.index !in used && d.used == used + [d.index];
      NextQuestionKeepsUsedOk(used, n, picks[0]);
      DrawsDistinctWithinCycle(d.used, n, picks[1..]);
      var rest := DrawMany(d.used, n, picks[1..]);
      assert DrawMany(used, n, picks) == [d.index] + rest;
      assert d.index in d.used;
      DistinctCons(d.index, rest);
      forall x | x in [d.index] + rest
        ensures x !in used
      {
        if x in rest {
          assert x !in d.used;
        }
      }
    }
  }

  /** The candidate list never repeats an index. */
  lemma {:induction false} UnusedDistinct(used: seq<nat>, n: nat)
    ensures Distinct(Unused(used, n))
  {
    if n > 0 {
      UnusedDistinct(used, n - 1);
      var init := Unused(used, n - 1);
      if n - 1 !in used {
        var c := init + [n - 1];
        assert Unused(used, n) == c;
        forall i, j | 0 <= i < j < |c|
          ensures c[i] != c[j]
        {
          assert c[i] == init[i] && c[i] in init;
          if j == |init| {
            assert c[i] < n - 1;
          } else {
            assert c[j] == init[j];
          }
        }
      }
    }
  }

  /** The candidate list is in increasing order. */
  lemma {:induction false} UnusedIncreasing(used: seq<nat>, n: nat)
    ensures forall i, j :: 0 <= i < j < |Unused(used, n)| ==> Unused(used, n)[i] < Unused(used, n)[j]
  {
    if n > 0 {
      UnusedIncreasing(used, n - 1);
      var init := Unused(used, n - 1);
      if n - 1 !in used {
        var c := init + [n - 1];
        assert Unused(used, n) == c;
        forall i, j | 0 <= i < j < |c|
          ensures c[i] < c[j]
        {
          assert c[i] == init[i] && c[i] in init;
          if j < |init| {
            assert c[j] == init[j];
          } else {
            assert c[i] < n - 1;
          }
        }
      } else {
        assert Unused(used, n) == init;
      }
    }
  }

  /** Every candidate can be drawn: some pick position yields it. */
  lemma NextQuestionCoversCandidates(used: seq<nat>, n: nat, x: nat)
    requires x < n && x !in Refilled(used, n)
    ensures exists p: nat :: p < |Candidates(used, n)| && NextQuestion(used, n, p).index == x
  {
    var c := Candidates(used, n);
    assert x in c;
    var p :| 0 <= p < |c| && c[p] == x;
    assert NextQuestion(used, n, p).index == x;
  }

  /** Different pick positions draw different questions, so a uniform pick is a uniform question. */
  lemma NextQuestionPickInjective(used: seq<nat>, n: nat, p: nat, q: nat)
    requires p < |Candidates(used, n)| && q < |Candidates(used, n)|
    ensures p != q ==> NextQuestion(used, n, p).index != NextQuestion(used, n, q).index
  {
    UnusedDistinct(Refilled(used, n), n);
  }

  /** Before the pool runs out, the draw chooses among exactly `n - |used|` candidates. */
  lemma CandidateCount(used: seq<nat>, n: nat)
    requires UsedOk(used, n)
    ensures |Unused(used, n)| == n - |used|
  {
    var c := Unused(used, n);
    UnusedDistinct(used, n);
    DistinctElemsSize(c);
    DistinctElemsSize(used);
    var e, b := Elems(used), Below(n);
    assert Elems(c) == b - e;
    assert e <= b by {
      forall x | x in e ensures x in b {
        var i :| 0 <= i < |used| && used[i] == x;
      }
    }
    assert b == e + (b - e);
    assert e * (b - e) == {};
  }

  /**
   * Picks that stay below the shrinking candidate count: the i-th pick is a
   * position among the `n - |used| - i` candidates left at that draw.
   */
  predicate PicksFit(k: nat, picks: seq<nat>) {
    forall i :: 0 <= i < |picks| ==> picks[i] + i < k
  }

  lemma {:induction false} PicksFitValid(used: seq<nat>, n: nat, picks: seq<nat>)
    requires UsedOk(used, n)
    requires |used| + |picks| <= n
    requires PicksFit(n - |used|, picks)
    ensures ValidPicks(used, n, picks)
    decreases |picks|
  {
    if |picks| > 0 {
      UsedBound(used, n);
      CandidateCount(used, n);
      assert Candidates(used, n) == Unused(used, n);
      assert picks[0] < |Candidates(used, n)|;
      var d := NextQuestion(used, n, picks[0]);
      NextQuestionKeepsUsedOk(used, n, picks[0]);
      assert |d.used| == |used| + 1;
      assert PicksFit(n - |d.used|, picks[1..]) by {
        forall i | 0 <= i < |picks[1..]|
          ensures picks[1..][i] + i < n - |d.used|
        {
          assert picks[1..][i] == picks[i + 1];
        }
      }
      PicksFitValid(d.used, n, picks[1..]);
    }
  }

  /** Any n draws from an empty used list, each a position among the candidates left, are pairwise distinct. */
  lemma FreshCycleDistinct(n: nat, picks: seq<nat>)
    requires |picks| <= n
    requires PicksFit(n, picks)
    ensures ValidPicks([], n, picks)
    ensures Distinct(DrawMany([], n, picks))
  {
    assert UsedOk([], n);
    PicksFitValid([], n, picks);
    DrawsDistinctWithinCycle([], n, picks);
  }

  /**
   * The first 37 consecutive draws from an empty used list, each a position
   * among the candidates left, never draw the same question twice.
   */
  lemma PoolCycleDistinct(picks: seq<nat>)
    requires |picks| <= Questions.PoolSize
    requires PicksFit(Questions.PoolSize, picks)
    ensures ValidPicks([], Questions.PoolSize, picks)
    ensures Distinct(DrawMany([], Questions.PoolSize, picks))
  {
    FreshCycleDistinct(Questions.PoolSize, picks);
  }
}

=== FILE: questions.dfy ===
/**
 * The fixed trivia pool. Each question has its text, four ordered options and
 * the index of the correct option.
 */
module Questions {

  datatype Question = Question(text: string, options: seq<string>, correct: int)

  /** The number of options every question offers. */
  const OptionCount: int := 4

  /** The number of questions in the pool. */
  const PoolSize: nat := 37

  const Pool: seq<Question> := [
    Question("What is the capital of France?",
             ["Paris", "London", "Berlin", "Madrid"], 0),
    Question("Which river flows through Egypt?",
             ["Amazon", "Nile", "Thames", "Ganges"], 1),
    Question("What is the largest ocean?",
             ["Atlantic", "Indian", "Pacific", "Arctic"], 2),
    Question("Which country has the most people?",
             ["USA", "India", "China", "Russia"], 2),
    Question("What is the capital of Japan?",
             ["Seoul", "Beijing", "Tokyo", "Bangkok"], 2),
    Question("Which mountain is the tallest?",
             ["K2", "Mount Everest", "Kilimanjaro", "Denali"], 1),
    Question("What is the capital of Australia?",
             ["Sydney", "Melbourne", "Canberra", "Perth"], 2),
    Question("Which continent is the Sahara Desert in?",
             ["Asia", "Africa", "Australia", "South America"], 1),
    Question("What ocean is west of the USA?",
             ["Atlantic", "Pacific", "Arctic", "Indian"], 1),
    Question("Which country is shaped like a boot?",
             ["Spain", "Greece", "Italy", "Portugal"], 2),
    Question("What is the smallest continent?",
             ["Europe", "Antarctica", "Australia", "South America"], 2),
    Question("Which city is called the Big Apple?",
             ["Los Angeles", "Chicago", "New York", "Boston"], 2),
    Question("What is the capital of Spain?",
             ["Barcelona", "Madrid", "Seville", "Valencia"], 1),
    Question("What gas do plants need for photosynthesis?",
             ["Oxygen", "Nitrogen", "Carbon Dioxide", "Hydrogen"], 2),
    Question("What is the smallest unit of life?",
             ["Atom", "Cell", "Molecule", "Tissue"], 1),
    Question("How many bones does an adult human have?",
             ["186", "206", "226", "246"], 1),
    Question("What is H2O?",
             ["Oxygen", "Hydrogen", "Water", "Salt"], 2),
    Question("What planet is closest to the Sun?",
             ["Venus", "Mars", "Mercury", "Earth"], 2),
    Question("What force keeps us on Earth?",
             ["Magnetism", "Electricity", "Gravity", "Friction"], 2),
    Question("How many players on a basketball team (on court)?",
             ["4", "5", "6", "7"], 1),
    Question("What sport is played at Wimbledon?",
             ["Cricket", "Tennis", "Golf", "Rugby"], 1),
    Question("How many players on a football team?",
             ["9", "10", "11", "12"], 2),
    Question("What color are the goalposts in rugby?",
             ["Yellow", "White", "Red", "Blue"], 1),
    Question("How many Olympic rings are there?",
             ["4", "5", "6", "7"], 1),
    Question("In cricket, how many stumps are there?",
             ["2", "3", "4", "5"], 1),
    Question("Who wrote Romeo and Juliet?",
             ["Dickens", "Shakespeare", "Austen", "Tolkien"], 1),
    Question("When did World War II end?",
             ["1943", "1944", "1945", "1946"], 2),
    Question("Who was the first US President?",
             ["Jefferson", "Washington", "Lincoln", "Adams"], 1),
    Question("When did humans first land on the Moon?",
             ["1965", "1967", "1969", "1971"], 2),
    Question("Who painted the Mona Lisa?",
             ["Picasso", "Van Gogh", "Da Vinci", "Michelangelo"], 2),
    Question("Which ancient wonder still stands?",
             ["Colossus", "Pyramids of Giza", "Hanging Gardens", "Lighthouse"], 1),
    Question("What is 12 \U{D7} 8?",
             ["84", "92", "96", "104"], 2),
    Question("What is 50% of 200?",
             ["50", "75", "100", "125"], 2),
    Question("What is the square root of 64?",
             ["6", "7", "8", "9"], 2),
    Question("What is 15 + 27?",
             ["40", "41", "42", "43"], 2),
    Question("How many sides does a hexagon have?",
             ["5", "6", "7", "8"], 1),
    Question("What is 9 \U{D7} 7?",
             ["54", "56", "63", "72"], 2)
  ]

  /** A question lists four options and its correct index names one of them. */
  predicate WellFormed(q: Question) {
    |q.options| == OptionCount && 0 <= q.correct < |q.options|
  }

  /** The correct option of pool question `i`: always one of its four options. */
  function CorrectOption(i: nat): (c: int)
    requires i < PoolSize
    ensures 0 <= c < OptionCount
  {
    PoolWellFormed();
    Pool[i].correct
  }

  /** The pool holds `PoolSize` well-formed questions. */
  lemma PoolWellFormed()
    ensures |Pool| == PoolSize
    ensures forall i :: 0 <= i < |Pool| ==> WellFormed(Pool[i])
  {
  }
}

=== FILE: quiz.dfy ===
/** How the computer answers a quiz question. */
module Quiz {
  import Questions

  /**
   * The computer's chosen option: the correct index when its coin says it
   * answers correctly, otherwise the correct index shifted by one to three
   * places around the four options. The index of every pool question is
   * non-negative, so the remainder here agrees with the truncating one.
   */
  function ComputerAnswer(correct: int, computerCorrect: bool, wrongOffset: nat): (a: int)
    requires 0 <= correct
    requires wrongOffset < 3
    ensures computerCorrect ==> a == correct
    ensures correct < Questions.OptionCount ==>
      && 0 <= a < Questions.OptionCount
      && (a == correct <==> computerCorrect)
  {
    if computerCorrect then correct
    else (correct + 1 + wrongOffset) % Questions.OptionCount
  }

  /** Every wrong option is reachable by some offset of the wrong branch. */
  lemma WrongAnswersCoverOtherOptions(correct: int, wrong: int)
    requires 0 <= correct < Questions.OptionCount
    requires 0 <= wrong < Questions.OptionCount && wrong != correct
    ensures exists k: nat :: k < 3 && ComputerAnswer(correct, false, k) == wrong
  {
    var k: nat := (wrong - correct - 1) % Questions.OptionCount;
    assert k < 3;
    assert ComputerAnswer(correct, false, k) == wrong;
  }
}

=== FILE: slots.dfy ===
/** The nullable slots of the match state as an Option: a value or nothing yet. */
module Slots {

  datatype Option<+T> = None | Some(value: T)
}
